=== FILE: README.md ===
# authgate-server, modelled in Dafny

authgate-server is a small authentication gateway written in Go with echo. It keeps users in a
Postgres `users` table and sessions in Redis. It serves five routes:

- `/register` creates a user whose password is stored as a bcrypt digest.
- `/login` checks the password, stores a fresh UUID session token in Redis for 24 hours, and
  sets two cookies: `userid` and `session`.
- `/logout`, `/profile` and `/verify-session` run behind a session middleware. The middleware
  admits a request only when both cookies are present, the token is live in Redis, and the token
  is bound to the user id that the `userid` cookie claims.

This project models that decision procedure as pure functions over an immutable state
`Server(users, sessions)`. Each handler returns an `Outcome`, which holds a reply (status code,
JSON body, cookies set) and the new state.

- `wrappers.dfy` holds `Option`.
- `http.dfy` holds status codes, cookies, bodies, the parsed request, and the error replies.
  `Jar` is what a client sends back after receiving a list of cookies.
- `users.dfy` is the users table: rows in insertion order. `Exists` is `SELECT EXISTS`.
  `Select` is the row that `QueryRow` scans.
- `sessions.dfy` is the Redis namespace: token to (user id, expiry), with `SET … EX`, `GET` and `DEL`.
- `bcrypt.dfy` is a `Hasher` record of two uninterpreted total functions. `Sound` states the
  only facts assumed of bcrypt: a digest verifies against its own password, and it never equals
  that password.
- `handlers.dfy` holds the middleware, the five handlers, the router `Serve`, and `Run`, which
  serves a sequence of calls one after another.
- `properties.dfy` holds the state invariant `Valid` and the lemmas that relate several calls.

Inputs that come from outside the program are fields of `Env`:

- the clock (`now`, whole seconds);
- the UUID drawn for a new session (`freshToken`);
- the id Postgres' `uuid_generate_v4()` default gives a new row (`freshId`);
- the salt bcrypt draws (`salt`);
- the set of backend calls that return an error in this call (`failing`).

A failed JSON bind is a request whose `body` is `None`.

## Model

| member | source | states |
|---|---|---|
| Users.Select | main.go:141 | The row a query returns is the first row whose column holds the value. The query returns none exactly when no row holds it. |
| Http.InvalidRequestError | main.go:47-49 | Replies 400 with body {error: "Invalid request"} and sets no cookies. |
| Http.UnauthorizedError | main.go:51-53 | Replies 401 with body {error: "Unauthorized"} and sets no cookies. |
| Handlers.SessionMiddleware | main.go:67-95 | The next handler runs iff both cookies are present, the Redis read succeeds, the token is live, and its bound id equals the `userid` cookie. The context then carries that id and token. A `Mismatch` rejection means the token was live but bound to another id. |
| Handlers.UserSignUpHandler | main.go:98-127 | Replies 200 iff the bind succeeded, email and password are non-empty, the email and the new id are not in the table, and no backend call failed. Otherwise it replies 400 and changes nothing. On 200 it appends exactly one row holding `hash(salt, password)`. It never sets cookies or touches sessions, and it keeps email and id uniqueness. |
| Handlers.UserSignInHandler | main.go:129-166 | A failed bind or an empty field gives 400. An unknown email, a failing lookup or a failing Redis write gives 401. Every non-200 reply leaves the state unchanged and sets no cookies. On 200, some row has the email and verifies the password. The fresh token is then bound to that row's id until now + 24 h, and both cookies carry that id and token with the same expiry. |
| Handlers.UserInfoHandler | main.go:168-182 | Replies 200 iff the id query succeeds and some row has the session's user id. The body is that row's email and name. Otherwise it replies 401. The state never changes. |
| Handlers.UserSignOutHandler | main.go:184-192 | Always replies 201 with body {status: "success"} and resets both cookies to "" with epoch expiry. It removes the token unless the delete fails, leaves every other session and the users table as they were, and adds no token. |
| Handlers.UserSessionVerify | main.go:194-200 | Replies 200 with body exactly the context's user id, sets no cookies and changes nothing. |
| Handlers.Serve | main.go:232-236 | A protected route whose session check fails replies 401 with no state change and no cookies. Only `/register` changes users, and only `/login` and `/logout` change sessions. |
| Sessions.GetAfterPut | main.go:154 | A session written at `now` is read back as its user id strictly before now + 86400 s, and as absent from then on. |
| Sessions.PutKeepsOthers | main.go:154 | Writing one token does not change what any other token reads. |
| Sessions.DeleteRevokes | main.go:186 | A deleted token reads as absent, and deleting it again changes nothing. |
| Properties.SignUpKeepsValid | main.go:106-124 | Registration keeps emails and ids unique, and keeps every session bound to an existing user. |
| Properties.SignInKeepsValid | main.go:141-158 | Sign-in keeps the invariant: a new session is bound to the id of an existing row. |
| Properties.ServeKeepsValid | main.go:232-236 | Every route keeps the invariant. |
| Properties.RunKeepsValid | main.go:232-236 | Any sequential history that starts in a valid state ends in one, so emails stay unique and every session names a registered user. |
| Properties.ServeAddsTokenOnlyBySignIn | main.go:153-158 | A token that appears after one call was minted by that call, which was a 200 `/login`. |
| Properties.SessionProvenance | main.go:153-158 | Every token in the store after a history either was there at the start and never left, or was minted by a successful sign-in of that history and has been in the store after every later step. No sign-out in between removed it. |
| Properties.RevokedStaysRevoked | main.go:184-191 | Suppose a `/logout` passed the session check for a token and its delete took place. If the token is in the store at the end of the history, then a later successful sign-in minted it again. |
| Properties.RegisterStoresDigest | main.go:113-120 | With a sound hasher, the stored password column is never the plaintext, and it verifies against the plaintext. |
| Properties.SignInSucceeds | main.go:141-165 | When the email query finds a row whose digest verifies the password, and Redis accepts the write, sign-in replies 200, binds the fresh token to that row's id until now + 24 h, and sets the `userid` cookie to that id. |
| Users.SelectInserted | main.go:119-120 | After inserting a row whose value in a column was new, a query on that value finds exactly the inserted row. |
| Properties.RegisterThenSignIn | main.go:141-161 | After a successful registration, signing in with the same email and password replies 200. It binds the fresh token to the new row's id and sets the `userid` cookie to that id. |
| Properties.SignInAsOwner | main.go:141-154 | With unique emails and working backends, signing in as the owner of a row succeeds iff the password verifies against that row's digest. The session is then bound to that row's id. |
| Properties.SignInCookiesAuthenticate | main.go:154-161 | The two cookies of a successful sign-in, sent back before the expiry, pass the session check as the bound user with the minted token. |
| Properties.SignInSessionExpires | main.go:154 | From now + 24 h onwards, the minted token is refused. |
| Properties.ForgedUserIdRejected | main.go:87-90 | A live token presented with another user's id in `userid` is refused on every protected route: 401, with no state change. |
| Properties.SignOutRevokes | main.go:186 | After `/logout` with a successful delete, the token is refused whatever `userid` comes with it, and `/verify-session` replies 401. |
| Properties.FailedDeleteKeepsSession | main.go:186-191 | When the delete returns an error and did not take place, `/logout` still replies 201 and clears the cookies, because the handler ignores that error. The session then stays in the store, and the same cookies pass the session check at any time before the session expires. |
| Properties.SignOutIdempotent | main.go:184-191 | Running the sign-out handler twice with the same context gives the same reply and state as running it once. |
| Properties.LogoutTwice | main.go:234 | A second `/logout` with the same cookies, after a first one that deleted the token, is refused by the middleware with 401 and no state change. |
| Properties.VerifyReturnsBoundUser | main.go:194-200 | `/verify-session` replies 200 iff the session check passes, with body exactly the user id the token is bound to. It never changes the state. |
| Properties.ProfileOfSessionUser | main.go:172-181 | With unique ids and a working query, `/profile` replies 200 with the session user's own id, email and name, and no state change. |
| Properties.AliceRegisters | main.go:98-127 | Registering Alice on an empty server replies "User created" and stores one row holding her password's digest. |
| Properties.AliceWrongPassword | main.go:147-151 | A wrong password for Alice gets 401 and mints no session. |
| Properties.AliceSignsIn | main.go:153-165 | Alice's correct password gets 200 "success" with `userid` = her id and `session` = the fresh token, both expiring at now + 24 h. The store binds that token to her id. |
| Properties.AliceSignsOut | main.go:184-200 | Alice's cookies verify as her id. After `/logout`, the store is empty and the same cookies get 401. |
| Properties.AliceScenario | main.go:98-200 | From an empty server, in sequence: Alice registers (200), signs in (200), and sends back within the day exactly the cookies she was given. `/verify-session` then replies 200 with her new id, `/logout` replies 201, and the same cookies then get 401. |

## Left out

- HTTP transport, echo routing details, JSON encoding and `main` (main.go:202-244) are not modelled; only the route-to-handler wiring of `Serve` is. A request is the already-bound form plus a name-to-value map of cookies.
- Schema bootstrap `initDB` (main.go:31-45) and environment loading are I/O. The one fact used from the schema is that `user_id` is the primary key: an insert with an id already in the table fails, and registration then replies 400.
- bcrypt is left abstract. The cost factor 14, the digest format and the 72-byte password limit are not modelled; any hashing error is the `HashPassword` failure flag. "A digest of a different password does not verify" is probabilistic and is not assumed.
- UUID generation, Postgres' id default and bcrypt's salt are randomness. They are inputs in `Env`. Freshness is not assumed: a colliding session token overwrites, as Redis `SET` does.
- Clocks are one integer `now` per call, in seconds. The source reads `time.Now()` separately for each cookie and Redis uses its own clock; both are taken to be the same instant.
- Error causes and `fmt.Printf` logging are collapsed into one failure flag per backend call. Redis `GET` errors and missing keys both give the reason `NotFoundOrExpired`, as in the source.
- The `UUID` type of the `user_id` column is not modelled. A `userid` cookie that is not a UUID makes the profile query fail in Postgres. Here it finds no row, and both give 401.
- Cookie attributes HttpOnly, Secure and SameSite=Strict are constants with no behaviour. Only name, value and expiry are modelled. A browser dropping expired cookies is not modelled: the lemmas replay old cookies, which is the stronger case.
- Concurrency is not modelled. In particular, the exists-then-insert race in registration is left out. The table has no UNIQUE constraint on email, so email uniqueness (`RunKeepsValid`) holds for sequential histories only.
- When several rows share an email, which can only happen through that race, the model's `QueryRow` returns the first in insertion order. Postgres promises no order.
- Properties.SessionProvenance: states one direction only. The converse, that a token minted and never revoked is still in the store, needs fresh tokens and a clock before expiry. Freshness is not assumed (see above).
- A repeated sign-out is refused: `/logout` runs behind the session middleware (main.go:234), so a second call with the same cookies replies 401 (`LogoutTwice`). Only the handler's own delete is idempotent (`SignOutIdempotent`).
- Sign-out ignores the error of Redis `DEL`, and the model follows the code (`FailedDeleteKeepsSession`).
- A backend call listed in `failing` is taken to have had no effect. A SET, DEL or INSERT that the server applied before the client saw an error (a lost reply, a read timeout) is not modelled. The no-change promises on failing calls of `UserSignInHandler`, `UserSignUpHandler` and `UserSignOutHandler`, `SessionProvenance`, and the second half of `FailedDeleteKeepsSession` rest on this reading.

=== FILE: bcrypt.dfy ===
/**
  bcrypt's `GenerateFromPassword` and `CompareHashAndPassword`, left
  uninterpreted. The salt bcrypt draws at random is an input; the cost
  factor and the digest format are not modelled.
 */
module Bcrypt {

  type Salt = nat

  /**
    `hash(salt, password)` is the digest stored for `password`;
    `verify(password, digest)` is `CompareHashAndPassword` returning nil.
   */
  datatype Hasher = Hasher(hash: (Salt, string) -> string, verify: (string, string) -> bool)

  /**
    The only facts the model assumes of bcrypt: a digest verifies against
    the password it was made from, and it is never the password itself.
   */
  ghost predicate Sound(h: Hasher) {
    forall salt: Salt, password: string {:trigger h.hash(salt, password)} ::
      h.verify(password, h.hash(salt, password)) && h.hash(salt, password) != password
  }

  /** A toy hasher that tags the password; enough to show `Sound` can be met. */
  function Tagging(): Hasher {
    Hasher((salt: Salt, p: string) => "$2a$" + p, (p: string, d: string) => d == "$2a$" + p)
  }

  lemma TaggingIsSound()
    ensures Sound(Tagging())
  {
  }
}

=== FILE: handlers.dfy ===
/**
  The gateway's handlers over an immutable server state. Each handler takes
  the state, the parsed request and the outside world of that one call
  (`Env`), and returns the reply it writes together with the new state.
 */
module Handlers {

  import opened Wrappers
  import opened Http
  import opened Users
  import opened Sessions
  import opened Bcrypt

  /** Postgres becomes the users table, Redis the session store. */
  datatype Server = Server(users: Table, sessions: Sessions.Store)

  /** The backend calls a handler makes; each can report an error. */
  datatype Call =
    | ExistsQuery    // SELECT EXISTS(... WHERE email=$1)
    | HashPassword   // bcrypt.GenerateFromPassword
    | InsertUser     // INSERT INTO users
    | SelectByEmail  // SELECT user_id, password ... WHERE email=$1
    | SelectById     // SELECT email, name ... WHERE user_id=$1
    | SessionSet     // RDB.Set
    | SessionGet     // RDB.Get
    | SessionDel     // RDB.Del

  /**
    What one call sees of the world: the clock, the UUID drawn for a new
    session, the id Postgres would give a new row, the salt bcrypt draws,
    and which backend calls fail.
   */
  datatype Env = Env(now: Instant, freshToken: Token, freshId: UserId, salt: Salt, failing: set<Call>)

  datatype Outcome = Outcome(reply: Reply, server: Server)

  /** What the middleware stores in the echo context for the next handler. */
  datatype Context = Context(userId: UserId, sessionId: Token)

  /** Why a session check failed; all of them reply 401. */
  datatype Reason = NoUserCookie | NoSessionCookie | NotFoundOrExpired | Mismatch

  datatype Check = Pass(ctx: Context) | Reject(reason: Reason)

  /** The expiry shared by a new session and both of its cookies. */
  function SessionExpiry(env: Env): Instant {
    env.now + Ttl
  }

  /**
    Lets the next handler run only when both cookies are present, the
    session token is live in the store, and the user id it is bound to is
    the one the `userid` cookie claims.
   */
  function SessionMiddleware(s: Server, req: Request, env: Env): (c: Check)
    ensures c.Pass? <==>
      && UserCookie in req.cookies
      && SessionCookie in req.cookies
      && SessionGet !in env.failing
      && Live(s.sessions, req.cookies[SessionCookie], env.now)
      && s.sessions[req.cookies[SessionCookie]].userId == req.cookies[UserCookie]
    ensures c.Pass? ==>
      && c.ctx.sessionId == req.cookies[SessionCookie]
      && c.ctx.userId == req.cookies[UserCookie]
      && c.ctx.userId == s.sessions[c.ctx.sessionId].userId
    ensures c == Reject(Mismatch) ==>
      && UserCookie in req.cookies && SessionCookie in req.cookies
      && Live(s.sessions, req.cookies[SessionCookie], env.now)
      && s.sessions[req.cookies[SessionCookie]].userId != req.cookies[UserCookie]
    ensures c == Reject(NotFoundOrExpired) ==>
      && UserCookie in req.cookies && SessionCookie in req.cookies
      && (SessionGet in env.failing || !Live(s.sessions, req.cookies[SessionCookie], env.now))
  {
    if UserCookie !in req.cookies then Reject(NoUserCookie)
    else if SessionCookie !in req.cookies then Reject(NoSessionCookie)
    else
      var userId := req.cookies[UserCookie];
      var sessionId := req.cookies[SessionCookie];
      var stored := if SessionGet in env.failing then None else Get(s.sessions, sessionId, env.now);
      if stored.None? then Reject(NotFoundOrExpired)
      else if stored.value != userId then Reject(Mismatch)
      else Pass(Context(userId, sessionId))
  }

  /**
    Registration: rejects a failed bind, an empty email or password, an
    email already in the table and any backend failure with 400; otherwise
    appends one row holding the digest of the password.
   */
  function UserSignUpHandler(s: Server, req: Request, env: Env, h: Hasher): (o: Outcome)
    ensures o.reply.cookies == [] && o.server.sessions == s.sessions
    ensures o.reply.code == Ok || o.reply.code == BadRequest
    ensures o.reply.code == BadRequest ==> o.server == s
    ensures o.reply.code == Ok <==>
      && Complete(req.body)
      && !Exists(s.users, EmailColumn, req.body.value.email)
      && !Exists(s.users, IdColumn, env.freshId)
      && {ExistsQuery, HashPassword, InsertUser} !! env.failing
    ensures o.reply.code == Ok ==>
      && o.reply.body == StatusBody("User created")
      && o.server.users == s.users + [UserRow(env.freshId, req.body.value.name, req.body.value.email,
                                               h.hash(env.salt, req.body.value.password))]
    ensures Unique(s.users, EmailColumn) ==> Unique(o.server.users, EmailColumn)
    ensures Unique(s.users, IdColumn) ==> Unique(o.server.users, IdColumn)
  {
    if !Complete(req.body) then Outcome(InvalidRequestError(), s)
    else
      var user := req.body.value;
      if ExistsQuery in env.failing || Exists(s.users, EmailColumn, user.email) then Outcome(InvalidRequestError(), s)
      else if HashPassword in env.failing then Outcome(InvalidRequestError(), s)
      // user_id is the primary key: a clashing id makes the insert fail
      else if InsertUser in env.failing || Exists(s.users, IdColumn, env.freshId) then Outcome(InvalidRequestError(), s)
      else
        var row := UserRow(env.freshId, user.name, user.email, h.hash(env.salt, user.password));
        Outcome(Reply(Ok, StatusBody("User created"), []), s.(users := Insert(s.users, row)))
  }

  /**
    Sign-in: 400 for a failed bind or an empty field; 401 for an unknown
    email, a password that does not verify, or a failing backend; otherwise
    binds the fresh token to the user's id for a day and sets both cookies.
   */
  function UserSignInHandler(s: Server, req: Request, env: Env, h: Hasher): (o: Outcome)
    ensures o.reply.code == Ok || o.reply.code == BadRequest || o.reply.code == Unauthorized
    ensures o.reply.code != Ok ==> o.server == s && o.reply.cookies == []
    ensures o.reply.code == BadRequest <==> !Complete(req.body)
    ensures Complete(req.body) && !Exists(s.users, EmailColumn, req.body.value.email) ==>
      o.reply.code == Unauthorized
    ensures Complete(req.body) && (SelectByEmail in env.failing || SessionSet in env.failing) ==>
      o.reply.code == Unauthorized
    ensures o.reply.code == Ok ==>
      && SelectByEmail !in env.failing && SessionSet !in env.failing
      && o.reply.body == StatusBody("success")
      && exists i | 0 <= i < |s.users| ::
        && s.users[i].email == req.body.value.email
        && h.verify(req.body.value.password, s.users[i].password)
        && o.server == s.(sessions := s.sessions[env.freshToken := Session(s.users[i].id, SessionExpiry(env))])
        && o.reply.cookies == [Cookie(UserCookie, s.users[i].id, SessionExpiry(env)),
                               Cookie(SessionCookie, env.freshToken, SessionExpiry(env))]
  {
    if !Complete(req.body) then Outcome(InvalidRequestError(), s)
    else
      var user := req.body.value;
      var found := if SelectByEmail in env.failing then None else Select(s.users, EmailColumn, user.email);
      if found.None? then Outcome(UnauthorizedError(), s)
      else
        var row := s.users[found.value];
        if !h.verify(user.password, row.password) then Outcome(UnauthorizedError(), s)
        else if SessionSet in env.failing then Outcome(UnauthorizedError(), s)
        else
          var cookies := [Cookie(UserCookie, row.id, SessionExpiry(env)),
                          Cookie(SessionCookie, env.freshToken, SessionExpiry(env))];
          Outcome(Reply(Ok, StatusBody("success"), cookies),
                  s.(sessions := Put(s.sessions, env.freshToken, row.id, env.now)))
  }

  /** Profile: the email and name stored for the session's user, or 401 when the row cannot be read. */
  function UserInfoHandler(s: Server, ctx: Context, env: Env): (o: Outcome)
    ensures o.server == s && o.reply.cookies == []
    ensures o.reply.code == Ok <==> SelectById !in env.failing && Exists(s.users, IdColumn, ctx.userId)
    ensures o.reply.code != Ok ==> o.reply.code == Unauthorized
    ensures o.reply.code == Ok ==> exists i | 0 <= i < |s.users| ::
      && s.users[i].id == ctx.userId
      && o.reply.body == ProfileBody(ctx.userId, s.users[i].email, s.users[i].name)
  {
    var found := if SelectById in env.failing then None else Select(s.users, IdColumn, ctx.userId);
    if found.None? then Outcome(UnauthorizedError(), s)
    else
      var row := s.users[found.value];
      Outcome(Reply(Ok, ProfileBody(ctx.userId, row.email, row.name), []), s)
  }

  /**
    Sign-out: deletes the session and clears both cookies. The error of the
    delete is ignored, so a failing delete still replies 201.
   */
  function UserSignOutHandler(s: Server, ctx: Context, env: Env): (o: Outcome)
    ensures o.reply.code == Created && o.reply.body == StatusBody("success")
    ensures o.server.users == s.users
    ensures SessionDel !in env.failing ==> ctx.sessionId !in o.server.sessions
    ensures forall t | t in s.sessions && t != ctx.sessionId :: t in o.server.sessions && o.server.sessions[t] == s.sessions[t]
    ensures o.server.sessions.Keys <= s.sessions.Keys
    ensures o.reply.cookies == [Cookie(UserCookie, "", Epoch), Cookie(SessionCookie, "", Epoch)]
  {
    var sessions := if SessionDel in env.failing then s.sessions else Delete(s.sessions, ctx.sessionId);
    var cookies := [Cookie(UserCookie, "", Epoch), Cookie(SessionCookie, "", Epoch)];
    Outcome(Reply(Created, StatusBody("success"), cookies), s.(sessions := sessions))
  }

  /** Session verification: echoes the user id the middleware resolved. */
  function UserSessionVerify(s: Server, ctx: Context): (o: Outcome)
    ensures o.server == s && o.reply.cookies == []
    ensures o.reply.code == Ok && o.reply.body == UserIdBody(ctx.userId)
  {
    Outcome(Reply(Ok, UserIdBody(ctx.userId), []), s)
  }

  /** The routes of the server. */
  datatype Route = Register | Login | Logout | Profile | VerifySession

  predicate Protected(route: Route) {
    route == Logout || route == Profile || route == VerifySession
  }

  /** One request through the router: protected routes run behind the session middleware. */
  function Serve(route: Route, s: Server, req: Request, env: Env, h: Hasher): (o: Outcome)
    ensures Protected(route) && SessionMiddleware(s, req, env).Reject? ==>
      o.reply.code == Unauthorized && o.server == s && o.reply.cookies == []
    ensures o.server.users == s.users || route == Register
    ensures o.server.sessions == s.sessions || route == Login || route == Logout
  {
    match route
    case Register => UserSignUpHandler(s, req, env, h)
    case Login => UserSignInHandler(s, req, env, h)
    case _ =>
      match SessionMiddleware(s, req, env)
      case Reject(_) => Outcome(UnauthorizedError(), s)
      case Pass(ctx) =>
        match route
        case Logout => UserSignOutHandler(s, ctx, env)
        case Profile => UserInfoHandler(s, ctx, env)
        case VerifySession => UserSessionVerify(s, ctx)
  }

  /** One call in a sequential history. */
  datatype Step = Step(route: Route, req: Request, env: Env)

  /** The state after serving `steps` one after another, starting from `s`. */
  function Run(s: Server, steps: seq<Step>, h: Hasher): Server
    decreases |steps|
  {
    if |steps| == 0 then s
    else
      var last := steps[|steps| - 1];
      Serve(last.route, Run(s, steps[..|steps| - 1], h), last.req, last.env, h).server
  }
}

=== FILE: http.dfy ===
/**
  The HTTP surface of the gateway as the handlers see it: the request after
  JSON binding and cookie parsing, and the reply they write (status code,
  JSON body, cookies set). Routing and serialisation are transport and are
  not modelled.
 */
module Http {

  import opened Wrappers

  const Ok: int := 200
  const Created: int := 201
  const BadRequest: int := 400
  const Unauthorized: int := 401

  /** The two cookies that bind a browser to a session. */
  const UserCookie: string := "userid"
  const SessionCookie: string := "session"

  /** Instants are whole seconds since the Unix epoch. */
  type Instant = int
  const Epoch: Instant := 0

  /** A cookie the handlers set with `SetCookie`; HttpOnly, Secure and SameSite=Strict are constant and left out. */
  datatype Cookie = Cookie(name: string, value: string, expires: Instant)

  /** The JSON bodies the handlers write. */
  datatype Body =
    | ErrorBody(error: string)
    | StatusBody(status: string)
    | ProfileBody(userId: string, email: string, name: string)
    | UserIdBody(userId: string)

  datatype Reply = Reply(code: int, body: Body, cookies: seq<Cookie>)

  /** The fields `c.Bind(&user)` fills from a JSON body. */
  datatype Form = Form(name: string, email: string, password: string)

  /**
    A request: `body` is None when binding failed; `cookies` maps each
    cookie name the client sent to its value.
   */
  datatype Request = Request(body: Option<Form>, cookies: map<string, string>)

  /** Binding succeeded and both required fields are non-empty. */
  predicate Complete(body: Option<Form>) {
    body.Some? && |body.value.email| > 0 && |body.value.password| > 0
  }

  /** `InvalidRequestError`: 400 with `{"error": "Invalid request"}`. */
  function InvalidRequestError(): (r: Reply)
    ensures r.code == BadRequest && r.body == ErrorBody("Invalid request") && r.cookies == []
  {
    Reply(BadRequest, ErrorBody("Invalid request"), [])
  }

  /** `UnauthorizedError`: 401 with `{"error": "Unauthorized"}`. */
  function UnauthorizedError(): (r: Reply)
    ensures r.code == Unauthorized && r.body == ErrorBody("Unauthorized") && r.cookies == []
  {
    Reply(Unauthorized, ErrorBody("Unauthorized"), [])
  }

  /**
    The cookies a client holds after receiving `cs` in order, as it sends
    them back on its next request: a later cookie of the same name replaces
    an earlier one.
   */
  function Jar(cs: seq<Cookie>): (jar: map<string, string>)
    ensures forall c | c in cs :: c.name in jar
    ensures forall n | n in jar :: exists c | c in cs :: c.name == n && c.value == jar[n]
    ensures |cs| > 0 ==> jar[cs[|cs| - 1].name] == cs[|cs| - 1].value
  {
    if |cs| == 0 then map[]
    else Jar(cs[..|cs| - 1])[cs[|cs| - 1].name := cs[|cs| - 1].value]
  }

  /** A client given two differently named cookies sends back exactly those two. */
  lemma JarOfPair(a: Cookie, b: Cookie)
    requires a.name != b.name
    ensures Jar([a, b]) == map[a.name := a.value, b.name := b.value]
  {
  }
}

=== FILE: properties.dfy ===
/**
  Properties that relate several calls: the invariant every handler keeps,
  round trips from registration to sign-in to a checked session, revocation
  on sign-out, and where session tokens come from.
 */
module Properties {

  import opened Wrappers
  import opened Http
  import opened Users
  import opened Sessions
  import opened Bcrypt
  import opened Handlers

  /**
    The state invariant of sequential operation: emails and ids are unique
    in the users table, and every session is bound to a registered user.
   */
  predicate Valid(s: Server) {
    && Unique(s.users, EmailColumn)
    && Unique(s.users, IdColumn)
    && forall t | t in s.sessions :: Exists(s.users, IdColumn, s.sessions[t].userId)
  }

  /** Registration keeps the invariant: the new row's email and id are fresh, and sessions are untouched. */
  lemma SignUpKeepsValid(s: Server, req: Request, env: Env, h: Hasher)
    requires Valid(s)
    ensures Valid(UserSignUpHandler(s, req, env, h).server)
  {
    var o := UserSignUpHandler(s, req, env, h);
    if o.reply.code == Ok {
      var f := req.body.value;
      var row := UserRow(env.freshId, f.name, f.email, h.hash(env.salt, f.password));
      forall t | t in o.server.sessions
        ensures Exists(o.server.users, IdColumn, o.server.sessions[t].userId)
      {
        InsertKeepsExisting(s.users, row, IdColumn, s.sessions[t].userId);
      }
    }
  }

  /** Sign-in keeps the invariant: the new session is bound to the id of an existing row. */
  lemma SignInKeepsValid(s: Server, req: Request, env: Env, h: Hasher)
    requires Valid(s)
    ensures Valid(UserSignInHandler(s, req, env, h).server)
  {
  }

  /** Every route keeps the invariant. */
  lemma ServeKeepsValid(route: Route, s: Server, req: Request, env: Env, h: Hasher)
    requires Valid(s)
    ensures Valid(Serve(route, s, req, env, h).server)
  {
    match route
    case Register => SignUpKeepsValid(s, req, env, h);
    case Login => SignInKeepsValid(s, req, env, h);
    case _ =>
  }

  /** Any sequential history started in a valid state ends in one. */
  lemma {:induction false} RunKeepsValid(s: Server, steps: seq<Step>, h: Hasher)
    requires Valid(s)
    ensures Valid(Run(s, steps, h))
    decreases |steps|
  {
    if |steps| > 0 {
      var last := steps[|steps| - 1];
      RunKeepsValid(s, steps[..|steps| - 1], h);
      ServeKeepsValid(last.route, Run(s, steps[..|steps| - 1], h), last.req, last.env, h);
    }
  }

  /** Step `k` of `steps` was a successful sign-in that minted `token`. */
  predicate IssuedAt(s: Server, steps: seq<Step>, h: Hasher, k: nat, token: Token)
    requires k < |steps|
  {
    && steps[k].route == Login
    && steps[k].env.freshToken == token
    && Serve(Login, Run(s, steps[..k], h), steps[k].req, steps[k].env, h).reply.code == Ok
  }

  /** Only a successful sign-in adds a token to the session store. */
  lemma ServeAddsTokenOnlyBySignIn(route: Route, s: Server, req: Request, env: Env, h: Hasher, token: Token)
    requires token in Serve(route, s, req, env, h).server.sessions && token !in s.sessions
    ensures route == Login && env.freshToken == token
    ensures Serve(route, s, req, env, h).reply.code == Ok
  {
  }

  /** A sign-in recorded in a prefix of a history is recorded in the whole history. */
  lemma IssuedInPrefix(s: Server, steps: seq<Step>, h: Hasher, n: nat, k: nat, token: Token)
    requires k < n <= |steps|
    requires IssuedAt(s, steps[..n], h, k, token)
    ensures IssuedAt(s, steps, h, k, token)
  {
    assert steps[..n][..k] == steps[..k];
  }

  /** `token` is in the store after every prefix of `steps` from length `from` on. */
  predicate StaysFrom(s: Server, steps: seq<Step>, h: Hasher, from: nat, token: Token) {
    forall j | from <= j <= |steps| :: token in Run(s, steps[..j], h).sessions
  }

  /** A token that stayed through a history without its last step, and is there at the end, stayed through the whole. */
  lemma StaysExtend(s: Server, steps: seq<Step>, h: Hasher, from: nat, token: Token)
    requires |steps| > 0
    requires StaysFrom(s, steps[..|steps| - 1], h, from, token)
    requires token in Run(s, steps, h).sessions
    ensures StaysFrom(s, steps, h, from, token)
  {
    var prefix := steps[..|steps| - 1];
    forall j | from <= j <= |steps|
      ensures token in Run(s, steps[..j], h).sessions
    {
      if j < |steps| {
        assert prefix[..j] == steps[..j];
      } else {
        assert steps[..j] == steps;
      }
    }
  }

  /**
    Every token in the store after a history was there at the start and
    never left, or was minted by a successful sign-in of the history and has
    stayed in the store ever since, so no later sign-out removed it.
   */
  lemma {:induction false} SessionProvenance(s: Server, steps: seq<Step>, h: Hasher, token: Token)
    requires token in Run(s, steps, h).sessions
    ensures || StaysFrom(s, steps, h, 0, token)
            || exists k | 0 <= k < |steps| :: IssuedAt(s, steps, h, k, token) && StaysFrom(s, steps, h, k + 1, token)
    decreases |steps|
  {
    if |steps| == 0 {
      assert steps[..0] == steps;
    } else {
      var n := |steps| - 1;
      var prefix := steps[..n];
      var before := Run(s, prefix, h);
      if token in before.sessions {
        SessionProvenance(s, prefix, h, token);
        if StaysFrom(s, prefix, h, 0, token) {
          StaysExtend(s, steps, h, 0, token);
        } else {
          var k :| 0 <= k < n && IssuedAt(s, prefix, h, k, token) && StaysFrom(s, prefix, h, k + 1, token);
          IssuedInPrefix(s, steps, h, n, k, token);
          StaysExtend(s, steps, h, k + 1, token);
        }
      } else {
        ServeAddsTokenOnlyBySignIn(steps[n].route, before, steps[n].req, steps[n].env, h, token);
        assert IssuedAt(s, steps, h, n, token);
        assert steps[..n + 1] == steps;
        assert StaysFrom(s, steps, h, n + 1, token);
      }
    }
  }

  /**
    A token revoked by a `/logout` whose delete took place is in the store
    at the end of a history only if a later successful sign-in minted it
    again.
   */
  lemma RevokedStaysRevoked(s: Server, steps: seq<Step>, h: Hasher, j: nat, token: Token)
    requires j < |steps|
    requires steps[j].route == Logout && SessionDel !in steps[j].env.failing
    requires SessionMiddleware(Run(s, steps[..j], h), steps[j].req, steps[j].env).Pass?
    requires steps[j].req.cookies[SessionCookie] == token
    requires token in Run(s, steps, h).sessions
    ensures exists k | j < k < |steps| :: IssuedAt(s, steps, h, k, token)
  {
    assert steps[..j + 1][..j] == steps[..j];
    assert steps[..j + 1][j] == steps[j];
    assert token !in Run(s, steps[..j + 1], h).sessions;
    SessionProvenance(s, steps, h, token);
    if !StaysFrom(s, steps, h, 0, token) {
      var k :| 0 <= k < |steps| && IssuedAt(s, steps, h, k, token) && StaysFrom(s, steps, h, k + 1, token);
      assert j < k;
    }
  }

  /** With a sound hasher, a new row holds a digest that verifies, never the plaintext. */
  lemma RegisterStoresDigest(s: Server, req: Request, env: Env, h: Hasher)
    requires Sound(h)
    requires UserSignUpHandler(s, req, env, h).reply.code == Ok
    ensures var row := UserSignUpHandler(s, req, env, h).server.users[|s.users|];
      && row.password != req.body.value.password
      && h.verify(req.body.value.password, row.password)
  {
  }

  /** Sign-in succeeds once the email query finds a row whose digest verifies the password. */
  lemma SignInSucceeds(s: Server, req: Request, env: Env, h: Hasher, i: nat)
    requires Complete(req.body)
    requires SelectByEmail !in env.failing && SessionSet !in env.failing
    requires Select(s.users, EmailColumn, req.body.value.email) == Some(i)
    requires h.verify(req.body.value.password, s.users[i].password)
    ensures var o := UserSignInHandler(s, req, env, h);
      && o.reply.code == Ok
      && o.server.sessions[env.freshToken] == Session(s.users[i].id, SessionExpiry(env))
      && o.reply.cookies[0] == Cookie(UserCookie, s.users[i].id, SessionExpiry(env))
  {
  }

  /** Registering and then signing in with the same email and password binds the new user's id. */
  lemma RegisterThenSignIn(s: Server, reg: Request, env: Env, login: Request, env': Env, h: Hasher)
    requires Sound(h)
    requires UserSignUpHandler(s, reg, env, h).reply.code == Ok
    requires login.body.Some?
    requires login.body.value.email == reg.body.value.email
    requires login.body.value.password == reg.body.value.password
    requires SelectByEmail !in env'.failing && SessionSet !in env'.failing
    ensures var o := UserSignInHandler(UserSignUpHandler(s, reg, env, h).server, login, env', h);
      && o.reply.code == Ok
      && o.server.sessions[env'.freshToken] == Session(env.freshId, SessionExpiry(env'))
      && o.reply.cookies[0] == Cookie(UserCookie, env.freshId, SessionExpiry(env'))
  {
    var f := reg.body.value;
    var row := UserRow(env.freshId, f.name, f.email, h.hash(env.salt, f.password));
    var s' := UserSignUpHandler(s, reg, env, h).server;
    assert s'.users == Insert(s.users, row);
    SelectInserted(s.users, row, EmailColumn);
    assert h.verify(f.password, row.password);
    SignInSucceeds(s', login, env', h, |s.users|);
  }

  /** Within a day, the cookies a successful sign-in sets pass the session check as that user. */
  lemma SignInCookiesAuthenticate(s: Server, req: Request, env: Env, h: Hasher, next: Request, env': Env)
    requires UserSignInHandler(s, req, env, h).reply.code == Ok
    requires next.cookies == Jar(UserSignInHandler(s, req, env, h).reply.cookies)
    requires SessionGet !in env'.failing
    requires env'.now < SessionExpiry(env)
    ensures var o := UserSignInHandler(s, req, env, h);
      SessionMiddleware(o.server, next, env') == Pass(Context(next.cookies[UserCookie], env.freshToken))
  {
  }

  /** Once the day is over the same cookies are refused. */
  lemma SignInSessionExpires(s: Server, req: Request, env: Env, h: Hasher, next: Request, env': Env)
    requires UserSignInHandler(s, req, env, h).reply.code == Ok
    requires SessionCookie in next.cookies && next.cookies[SessionCookie] == env.freshToken
    requires SessionExpiry(env) <= env'.now
    ensures SessionMiddleware(UserSignInHandler(s, req, env, h).server, next, env').Reject?
  {
  }

  /** A live token presented with a `userid` cookie other than its own is refused on every protected route. */
  lemma ForgedUserIdRejected(route: Route, s: Server, req: Request, env: Env, h: Hasher)
    requires Protected(route)
    requires UserCookie in req.cookies && SessionCookie in req.cookies
    requires Live(s.sessions, req.cookies[SessionCookie], env.now)
    requires s.sessions[req.cookies[SessionCookie]].userId != req.cookies[UserCookie]
    ensures SessionMiddleware(s, req, env) == Reject(Mismatch) || SessionMiddleware(s, req, env) == Reject(NotFoundOrExpired)
    ensures Serve(route, s, req, env, h) == Outcome(UnauthorizedError(), s)
  {
  }

  /** After a sign-out whose delete succeeded, the token is refused whatever `userid` accompanies it. */
  lemma SignOutRevokes(s: Server, req: Request, env: Env, h: Hasher, next: Request, env': Env)
    requires Serve(Logout, s, req, env, h).reply.code == Created
    requires SessionDel !in env.failing
    requires SessionCookie in next.cookies && next.cookies[SessionCookie] == req.cookies[SessionCookie]
    ensures SessionMiddleware(Serve(Logout, s, req, env, h).server, next, env').Reject?
    ensures Serve(VerifySession, Serve(Logout, s, req, env, h).server, next, env', h).reply.code == Unauthorized
  {
  }

  /**
    The delete's error is ignored: when it fails, `/logout` still replies
    201 and clears the cookies, yet the session stays live and the old
    cookies still pass the session check.
   */
  lemma FailedDeleteKeepsSession(s: Server, req: Request, env: Env, h: Hasher, env': Env)
    requires SessionMiddleware(s, req, env).Pass?
    requires SessionDel in env.failing
    requires SessionGet !in env'.failing
    requires env'.now < s.sessions[req.cookies[SessionCookie]].expiry
    ensures var o := Serve(Logout, s, req, env, h);
      && o.reply.code == Created
      && o.reply.cookies == [Cookie(UserCookie, "", Epoch), Cookie(SessionCookie, "", Epoch)]
      && SessionMiddleware(o.server, req, env') == SessionMiddleware(s, req, env)
  {
  }

  /** The sign-out handler is idempotent: deleting the same session twice is the same as once. */
  lemma SignOutIdempotent(s: Server, ctx: Context, env: Env)
    ensures var once := UserSignOutHandler(s, ctx, env);
      UserSignOutHandler(once.server, ctx, env) == once
  {
  }

  /**
    Repeating `/logout` with the same cookies: the first call deletes the
    session, so the middleware refuses the second with 401.
   */
  lemma LogoutTwice(s: Server, req: Request, env: Env, env': Env, h: Hasher)
    requires Serve(Logout, s, req, env, h).reply.code == Created
    requires SessionDel !in env.failing
    ensures var s' := Serve(Logout, s, req, env, h).server;
      Serve(Logout, s', req, env', h) == Outcome(UnauthorizedError(), s')
  {
  }

  /** `/verify-session` answers 200 exactly when the session check passes, with the id the token is bound to. */
  lemma VerifyReturnsBoundUser(s: Server, req: Request, env: Env, h: Hasher)
    ensures var o := Serve(VerifySession, s, req, env, h);
      && o.server == s
      && (o.reply.code == Ok <==> SessionMiddleware(s, req, env).Pass?)
      && (o.reply.code == Ok ==>
            o.reply.body == UserIdBody(s.sessions[req.cookies[SessionCookie]].userId))
  {
  }

  /** With unique ids, `/profile` answers with the email and name of the session's own row. */
  lemma ProfileOfSessionUser(s: Server, req: Request, env: Env, h: Hasher, i: nat)
    requires Valid(s)
    requires SessionMiddleware(s, req, env).Pass?
    requires i < |s.users| && s.users[i].id == req.cookies[UserCookie]
    requires SelectById !in env.failing
    ensures Serve(Profile, s, req, env, h) ==
      Outcome(Reply(Ok, ProfileBody(s.users[i].id, s.users[i].email, s.users[i].name), []), s)
  {
    SelectUnique(s.users, IdColumn, i);
  }

  /**
    With unique emails and working backends, signing in as the owner of row
    `i` succeeds exactly when the password verifies against that row's
    digest, and then binds that row's id.
   */
  lemma SignInAsOwner(s: Server, req: Request, env: Env, h: Hasher, i: nat)
    requires Valid(s)
    requires Complete(req.body)
    requires i < |s.users| && s.users[i].email == req.body.value.email
    requires SelectByEmail !in env.failing && SessionSet !in env.failing
    ensures var o := UserSignInHandler(s, req, env, h);
      && (o.reply.code == Ok <==> h.verify(req.body.value.password, s.users[i].password))
      && (o.reply.code == Ok ==> o.server.sessions[env.freshToken].userId == s.users[i].id)
  {
    SelectUnique(s.users, EmailColumn, i);
  }

  // The scenario below follows one user through every route, from an empty server.

  function AliceRow(id: UserId, h: Hasher, salt: Salt): UserRow {
    UserRow(id, "Alice", "alice@x.com", h.hash(salt, "secret123"))
  }

  /** Alice registers on an empty server: one row, holding the digest of her password. */
  lemma AliceRegisters(h: Hasher, env: Env)
    requires env.failing == {}
    ensures var o := Serve(Register, Server([], map[]), Request(Some(Form("Alice", "alice@x.com", "secret123")), map[]), env, h);
      o == Outcome(Reply(Ok, StatusBody("User created"), []), Server([AliceRow(env.freshId, h, env.salt)], map[]))
  {
  }

  /** A wrong password is refused and mints no session. */
  lemma AliceWrongPassword(h: Hasher, id: UserId, salt: Salt, env: Env)
    requires !h.verify("wrongpass", h.hash(salt, "secret123"))
    ensures var s := Server([AliceRow(id, h, salt)], map[]);
      Serve(Login, s, Request(Some(Form("", "alice@x.com", "wrongpass")), map[]), env, h) == Outcome(UnauthorizedError(), s)
  {
  }

  /** The right password binds a fresh token to her id and hands back both cookies. */
  lemma AliceSignsIn(h: Hasher, id: UserId, salt: Salt, env: Env)
    requires Sound(h)
    requires env.failing == {}
    ensures var s := Server([AliceRow(id, h, salt)], map[]);
      var login := Serve(Login, s, Request(Some(Form("", "alice@x.com", "secret123")), map[]), env, h);
      && login.reply == Reply(Ok, StatusBody("success"), [Cookie(UserCookie, id, SessionExpiry(env)),
                                                          Cookie(SessionCookie, env.freshToken, SessionExpiry(env))])
      && login.server == Server(s.users, map[env.freshToken := Session(id, SessionExpiry(env))])
  {
    var s := Server([AliceRow(id, h, salt)], map[]);
    assert Select(s.users, EmailColumn, "alice@x.com") == Some(0);
    assert h.verify("secret123", h.hash(salt, "secret123"));
  }

  /**
    Signed in, Alice's cookies verify as her id; after she signs out the
    same cookies are refused.
   */
  lemma AliceSignsOut(users: Table, id: UserId, token: Token, expiry: Instant, env: Env, h: Hasher)
    requires env.failing == {} && env.now < expiry
    ensures var s := Server(users, map[token := Session(id, expiry)]);
      var cookies := Request(None, map[UserCookie := id, SessionCookie := token]);
      var logout := Serve(Logout, s, cookies, env, h);
      && Serve(VerifySession, s, cookies, env, h).reply == Reply(Ok, UserIdBody(id), [])
      && logout.reply.code == Created
      && logout.server == Server(users, map[])
      && Serve(VerifySession, logout.server, cookies, env, h).reply.code == Unauthorized
  {
  }

  /**
    The whole scenario in sequence: Alice registers, signs in, sends back
    the cookies she was given within the day, is verified as her new id,
    signs out, and the same cookies are then refused.
   */
  lemma AliceScenario(h: Hasher, e1: Env, e2: Env, e3: Env)
    requires Sound(h)
    requires e1.failing == {} && e2.failing == {} && e3.failing == {}
    requires e2.now <= e3.now < e2.now + Ttl
    ensures
      var register := Serve(Register, Server([], map[]), Request(Some(Form("Alice", "alice@x.com", "secret123")), map[]), e1, h);
      var login := Serve(Login, register.server, Request(Some(Form("", "alice@x.com", "secret123")), map[]), e2, h);
      var cookies := Request(None, Jar(login.reply.cookies));
      var logout := Serve(Logout, login.server, cookies, e3, h);
      && register.reply.code == Ok
      && login.reply.code == Ok
      && Serve(VerifySession, login.server, cookies, e3, h).reply == Reply(Ok, UserIdBody(e1.freshId), [])
      && logout.reply.code == Created
      && Serve(VerifySession, logout.server, cookies, e3, h).reply.code == Unauthorized
  {
    AliceRegisters(h, e1);
    AliceSignsIn(h, e1.freshId, e1.salt, e2);
    var s1 := Server([AliceRow(e1.freshId, h, e1.salt)], map[]);
    var login := Serve(Login, s1, Request(Some(Form("", "alice@x.com", "secret123")), map[]), e2, h);
    JarOfPair(login.reply.cookies[0], login.reply.cookies[1]);
    AliceSignsOut([AliceRow(e1.freshId, h, e1.salt)], e1.freshId, e2.freshToken, SessionExpiry(e2), e3, h);
  }
}

=== FILE: sessions.dfy ===
/**
  The Redis namespace of sessions: token -> bound user id, each key with an
  absolute expiry. Redis drops a key once its TTL has run out; here an
  expired entry may stay in the map but is never returned by `Get`, which
  is the same to every reader.
 */
module Sessions {

  import opened Wrappers
  import opened Http

  type Token = string

  datatype Session = Session(userId: string, expiry: Instant)

  type Store = map<Token, Session>

  /** `time.Hour * 24`, in seconds. */
  const Ttl: int := 24 * 60 * 60

  /** The key is present and its TTL has not yet run out at `now`. */
  predicate Live(s: Store, token: Token, now: Instant) {
    token in s && now < s[token].expiry
  }

  /** `SET token userId EX 86400`: overwrites whatever the token held. */
  function Put(s: Store, token: Token, userId: string, now: Instant): Store {
    s[token := Session(userId, now + Ttl)]
  }

  /** `GET token`: the bound user id, or None (`redis.Nil`) when absent or expired. */
  function Get(s: Store, token: Token, now: Instant): Option<string> {
    if Live(s, token, now) then Some(s[token].userId) else None
  }

  /** `DEL token`: removing an absent key is not an error. */
  function Delete(s: Store, token: Token): Store {
    s - {token}
  }

  /** A stored session is returned for exactly one day. */
  lemma GetAfterPut(s: Store, token: Token, userId: string, now: Instant, later: Instant)
    ensures Get(Put(s, token, userId, now), token, later) == if later < now + Ttl then Some(userId) else None
  {
  }

  /** Storing one token leaves every other token as it was. */
  lemma PutKeepsOthers(s: Store, token: Token, userId: string, now: Instant, other: Token, at: Instant)
    requires other != token
    ensures Get(Put(s, token, userId, now), other, at) == Get(s, other, at)
  {
  }

  /** A deleted token is gone, and deleting it again changes nothing. */
  lemma DeleteRevokes(s: Store, token: Token, at: Instant)
    ensures Get(Delete(s, token), token, at) == None
    ensures Delete(Delete(s, token), token) == Delete(s, token)
  {
  }
}

=== FILE: users.dfy ===
/**
  The `users` table: rows of (user_id, name, email, password digest), kept
  in insertion order. `QueryRow` returns the first row that matches its
  WHERE clause; `SELECT EXISTS` answers whether any row matches.
 */
module Users {

  import opened Wrappers

  type UserId = string

  /** One row; `password` holds a bcrypt digest, never the plaintext. */
  datatype UserRow = UserRow(id: UserId, name: string, email: string, password: string)

  type Table = seq<UserRow>

  /** The columns the handlers filter on. */
  datatype Column = IdColumn | EmailColumn

  function Value(row: UserRow, col: Column): string {
    match col
    case IdColumn => row.id
    case EmailColumn => row.email
  }

  /** `SELECT EXISTS(SELECT 1 FROM users WHERE col = v)` */
  predicate Exists(t: Table, col: Column, v: string) {
    exists i | 0 <= i < |t| :: Value(t[i], col) == v
  }

  /** No two rows share a value in `col`. */
  predicate Unique(t: Table, col: Column) {
    forall i, j | 0 <= i < j < |t| :: Value(t[i], col) != Value(t[j], col)
  }

  /**
    The index of the row `QueryRow(... WHERE col = v)` scans: the first
    match, or None where the driver reports `sql.ErrNoRows`.
   */
  function Select(t: Table, col: Column, v: string): (r: Option<nat>)
    ensures r.Some? ==> r.value < |t| && Value(t[r.value], col) == v
    ensures r.Some? ==> forall j | 0 <= j < r.value :: Value(t[j], col) != v
    ensures r.None? <==> !Exists(t, col, v)
  {
    if |t| == 0 then None
    else if Value(t[0], col) == v then Some(0)
    else
      match Select(t[1..], col, v)
      case None =>
        assert forall i | 1 <= i < |t| :: t[i] == t[1..][i - 1];
        None
      case Some(k) =>
        assert t[k + 1] == t[1..][k];
        assert forall j | 1 <= j < k + 1 :: t[j] == t[1..][j - 1];
        Some(k + 1)
  }

  /** `INSERT INTO users ...` appends one row. */
  function Insert(t: Table, row: UserRow): Table {
    t + [row]
  }

  /** When the values of `col` are unique, the query finds exactly the row holding `v`. */
  lemma SelectUnique(t: Table, col: Column, i: nat)
    requires Unique(t, col)
    requires i < |t|
    ensures Select(t, col, Value(t[i], col)) == Some(i)
  {
  }

  /** Rows already present still match after an insert, and the new row matches too. */
  lemma InsertKeepsExisting(t: Table, row: UserRow, col: Column, v: string)
    ensures Exists(Insert(t, row), col, v) <==> Exists(t, col, v) || Value(row, col) == v
  {
    var t' := Insert(t, row);
    if Exists(t, col, v) {
      var i :| 0 <= i < |t| && Value(t[i], col) == v;
      assert t'[i] == t[i];
    }
    if Value(row, col) == v {
      assert t'[|t|] == row;
    }
  }

  /** A row whose value in `col` was absent is the one a query on that value finds after the insert. */
  lemma SelectInserted(t: Table, row: UserRow, col: Column)
    requires !Exists(t, col, Value(row, col))
    ensures Select(Insert(t, row), col, Value(row, col)) == Some(|t|)
  {
    var t' := Insert(t, row);
    assert t'[|t|] == row;
    assert forall j | 0 <= j < |t| :: t'[j] == t[j];
  }
}

=== FILE: wrappers.dfy ===
/** The optional value used for lookups that may find nothing. */
module Wrappers {

  datatype Option<+T> = None | Some(value: T)
}
